=== FILE: README.md ===
# FaceTableDao: the face record store, modelled in Dafny

The photo server keeps one row per detected face in the `faces` table, with
the columns `facetoken, etag, pos, faceid, quality, gender, age`. `etag` is the
photo's content hash. `faceid` is the cluster the face belongs to, and `-1`
means it is not clustered yet. A photo in which no face was found gets one
placeholder row whose token is the text `"null"`. `FaceTableDao` is the only
code that reads or writes this table. Its operations are:

- `insertOneRecord` and `addRecords` add faces.
- `addEmptyRecords` adds the placeholder for a face-less photo.
- `checkAlreadyDetect` is the dedup gate: has this photo been processed?
- `getFace` looks a face up by token.
- `getAllNewFaces` is the queue of unclustered faces, ordered by quality.
- `getAllValidFaceID` lists the largest clusters.
- `getFacesByID` lists one cluster's members.
- The three `updateFaceID` overloads handle point relabelling, batch
  relabelling and cluster merge.
- `deleteOneFile` removes a photo's rows.
- `getNextNineFileByHashStr` navigates within a cluster: it returns the faces
  that follow an anchor face when the cluster is ordered by quality.

The model treats the table as a sequence of `Face` values and each operation
as a pure function from table to table or from table to result. A Java
`null` argument or result is `Wrappers.Option.Null`. The quality order is a
parameter `leq` that must be a total preorder. It stands for the SQL
`order by quality` and for `FacerUtils.sortByQuality`, which is not part of
this model. Sorting is a stable insertion sort (`Sequences.SortBy`) proved to
return a permutation in non-decreasing order.

Files:

- `wrappers.dfy`: `Option`, for Java references that may be null.
- `sequences.dfy`: the non-null elements of a list, min and max, filter,
  find-first, sort and reverse, with their contracts.
- `java_text.dfy`: `Character.isWhitespace` and `StringUtils.isBlank`.
- `face_table.dfy`: the rows and every store operation except the two
  below.
- `top_clusters.dfy`: `getAllValidFaceID`.
- `neighbours.dfy`: `getNextNineFileByHashStr`. It has a loop-based method
  that mirrors the Java `for` loop, proved equal to a functional definition.
- `table_properties.dfy`: properties that relate several operations.
- `placeholder_navigation.dfy`: when a token can be on several rows, and
  how the shared placeholder token meets navigation.

Two behaviours of navigation are easy to misread:

- **Anchor missing from its ordered cluster.** Navigation then returns an
  empty list, not null. `Neighbours.AnchorAlwaysFound` shows that this
  cannot happen when the lookup and the cluster read see the same table.
- **Anchor with a cluster id below -1.** Such an anchor yields null.
  `getFacesByID` returns null for a negative id, a later use of `allf`
  throws (at the latest `allf.size()` at line 478), and the `catch`
  returns null.
  The model gives this as `Null`.

## Model

| member | source | states |
|---|---|---|
| FaceTable.InsertOneRecord | photoweb/src/com/backend/dao/FaceTableDao.java:35-66 | a null face leaves the table unchanged; otherwise the old rows are kept in place and exactly one row, the face, follows them |
| FaceTable.InsertEach | photoweb/src/com/backend/dao/FaceTableDao.java:75-78 | inserting the list element by element appends exactly its non-null faces, in list order |
| FaceTable.AddRecords | photoweb/src/com/backend/dao/FaceTableDao.java:68-79 | a null or empty list changes nothing; otherwise the table gains the list's non-null faces in order |
| FaceTable.AddEmptyRecords | photoweb/src/com/backend/dao/FaceTableDao.java:164-175 | one row is appended: the photo's hash, faceid -1, quality "0", and "null" for token, pos, gender and age |
| FaceTable.CheckAlreadyDetect | photoweb/src/com/backend/dao/FaceTableDao.java:108-162 | true exactly when the etag is not blank and some row carries it (both directions) |
| FaceTable.TokenIndex | photoweb/src/com/backend/dao/FaceTableDao.java:222-230 | the position of the first row with the token, or none exactly when no row has it |
| FaceTable.GetFace | photoweb/src/com/backend/dao/FaceTableDao.java:213-250 | a blank token finds nothing; otherwise a face is found exactly when some row has the token, and it is the first such row |
| FaceTable.GetAllNewFaces | photoweb/src/com/backend/dao/FaceTableDao.java:177-211 | every unclustered face that is not a placeholder, as often as in the table and nothing else, in non-decreasing quality |
| FaceTable.GetFacesByID | photoweb/src/com/backend/dao/FaceTableDao.java:370-407 | null exactly for a negative id; otherwise exactly the rows of that cluster, each as often as in the table |
| FaceTable.Relabel | photoweb/src/com/backend/dao/FaceTableDao.java:282-285 | an `update ... set faceid` statement: same length, and each row changes its faceid exactly when the where-clause selects it, and changes nothing else |
| FaceTable.UpdateFaceId | photoweb/src/com/backend/dao/FaceTableDao.java:271-295 | null changes nothing; rows with the face's token take its faceid; no other row and no other column changes |
| FaceTable.UpdateEach | photoweb/src/com/backend/dao/FaceTableDao.java:329-332 | a row ends in the cluster of the last face in the list naming its token, and keeps its cluster when no face names it |
| FaceTable.UpdateFaceIds | photoweb/src/com/backend/dao/FaceTableDao.java:322-333 | a null or empty list changes nothing; otherwise last write wins per token, and only faceids change |
| FaceTable.ReassignFaceId | photoweb/src/com/backend/dao/FaceTableDao.java:409-433 | nothing changes if either id is -1; otherwise exactly the rows of the old cluster move to the new one, and only their faceid changes |
| FaceTable.DeleteOneFile | photoweb/src/com/backend/dao/FaceTableDao.java:297-320 | a null etag changes nothing; otherwise every row of that photo goes and every other row stays, as often as before |
| FaceTable.QualityLeIsPreorder | photoweb/src/com/backend/dao/FaceTableDao.java:184-185 | comparing rows by their quality text under a total preorder is itself a total preorder |
| TopClusters.EffectiveLimit | photoweb/src/com/backend/dao/FaceTableDao.java:346 | the query's limit lies strictly between 0 and 300: the caller's count when it is in range, 25 otherwise |
| TopClusters.ClusterIds | photoweb/src/com/backend/dao/FaceTableDao.java:344-345 | the `group by faceid` groups: each id other than -1 that occurs in the table, once |
| TopClusters.GetAllValidFaceID | photoweb/src/com/backend/dao/FaceTableDao.java:335-368 | at most the limit of distinct real cluster ids, with non-increasing member counts; no omitted cluster is larger than a listed one; a short list lists every cluster |
| TopClusters.TopPrefix | photoweb/src/com/backend/dao/FaceTableDao.java:345-346 | the first n ids of the count-sorted group list have all of the properties above |
| TopClusters.OutOfRangeLimitIsDefault | photoweb/src/com/backend/dao/FaceTableDao.java:346 | limits 0 and 500 give the same list, of at most 25 ids |
| Neighbours.OrderedCluster | photoweb/src/com/backend/dao/FaceTableDao.java:471-476 | the cluster sorted by quality, ascending for "next" and descending otherwise; a permutation of the members |
| Neighbours.ReverseMultiset | photoweb/src/com/backend/dao/FaceTableDao.java:472-475 | `Collections.reverse` keeps the same elements |
| Neighbours.RunAfter | photoweb/src/com/backend/dao/FaceTableDao.java:478-500 | empty when the anchor token is absent; otherwise a contiguous run right after the anchor, at most max(1, min(count, size)) long, and shorter only when it reaches the end |
| Neighbours.ScanAfter | photoweb/src/com/backend/dao/FaceTableDao.java:478-500 | the `start` flag and counter loop, with its `break`, computes exactly `RunAfter` |
| Neighbours.Navigate | photoweb/src/com/backend/dao/FaceTableDao.java:435-536 | null exactly when the token finds no face or the face's cluster id is negative |
| Neighbours.GetNextNineFileByHashStr | photoweb/src/com/backend/dao/FaceTableDao.java:435-536 | equals `Navigate`; null exactly for an unknown token or a negative cluster id; otherwise at most max(1, min(count, cluster size)) faces |
| Neighbours.AnchorAlwaysFound | photoweb/src/com/backend/dao/FaceTableDao.java:483-489 | the anchor's own token always occurs in its ordered cluster, so the scan always starts |
| Neighbours.AnchorPositionHoldsAnchor | photoweb/src/com/backend/dao/FaceTableDao.java:483-489 | when the anchor's token is on one row only, the scan starts at the anchor face itself |
| Neighbours.ClusterRow | photoweb/src/com/backend/dao/FaceTableDao.java:471 | every face of a reordered cluster is a table row of that cluster |
| Neighbours.NavigateStaysOnOneSide | photoweb/src/com/backend/dao/FaceTableDao.java:471-500 | when the anchor's token is on one row only: from a clustered anchor, navigation returns a list, and every face in it is a table row of the anchor's cluster, of quality at least the anchor's for "next" and at most for "previous" |
| Neighbours.ZeroCountStillReturnsOne | photoweb/src/com/backend/dao/FaceTableDao.java:478-498 | with count <= 0 and a row after the anchor, the run has exactly one face |
| Neighbours.ZeroCountAnchorLastIsEmpty | photoweb/src/com/backend/dao/FaceTableDao.java:483-498 | with count <= 0 and the anchor last in its ordered cluster, no face follows it and the run is empty |
| Neighbours.ZeroCountExample | photoweb/src/com/backend/dao/FaceTableDao.java:478-498 | a two-face cluster whose second face has strictly higher quality, navigated forwards from its first face with count 0, returns the second face; its steps are the lemmas `ExampleAnchor`, `ExampleCluster`, `ExampleOrder` and `ExampleRun` |
| Neighbours.RunAfterCapped | photoweb/src/com/backend/dao/FaceTableDao.java:478-498 | the corrected run: never longer than max(0, min(count, size)) faces, and empty for count <= 0 |
| Neighbours.CappedAgreesForPositiveCount | photoweb/src/com/backend/dao/FaceTableDao.java:478-498 | for count >= 1 the corrected run equals the code's run |
| TableProperties.DetectedAfterAddRecords | photoweb/src/com/backend/dao/FaceTableDao.java:68-79 | after adding a list of faces, the photo of any non-null face in it counts as detected exactly when its etag is not blank |
| TableProperties.DetectedAfterEmptyRecord | photoweb/src/com/backend/dao/FaceTableDao.java:164-175 | after its placeholder is stored, a photo counts as detected exactly when its hash is not blank |
| TableProperties.NotDetectedAfterDelete | photoweb/src/com/backend/dao/FaceTableDao.java:297-320 | after a photo is deleted it no longer counts as detected |
| TableProperties.DeleteKeepsOrder | photoweb/src/com/backend/dao/FaceTableDao.java:308 | deleting after an append equals appending the row, if it survives, after deleting; remaining rows keep their order |
| TableProperties.DeleteSparesOtherPhotos | photoweb/src/com/backend/dao/FaceTableDao.java:308 | deleting one photo leaves the detected status of every other photo as it was |
| TableProperties.EmptyRecordKeepsPlaceholders | photoweb/src/com/backend/dao/FaceTableDao.java:164-175 | adding a placeholder keeps every placeholder unclustered |
| TableProperties.DeleteKeepsPlaceholders | photoweb/src/com/backend/dao/FaceTableDao.java:297-320 | deleting keeps every placeholder unclustered |
| TableProperties.ReassignKeepsPlaceholders | photoweb/src/com/backend/dao/FaceTableDao.java:409-433 | a merge, for any pair of ids, keeps every placeholder unclustered |
| TableProperties.UpdateKeepsPlaceholders | photoweb/src/com/backend/dao/FaceTableDao.java:271-295 | a point update keeps placeholders unclustered unless it gives the "null" token a real cluster |
| TableProperties.UpdateCanClusterPlaceholders | photoweb/src/com/backend/dao/FaceTableDao.java:282 | a point update naming the token "null" with a real cluster does cluster the placeholders: the method does not guard it |
| TableProperties.QueueHasNoPlaceholders | photoweb/src/com/backend/dao/FaceTableDao.java:184-187 | no face in the new-face queue is a placeholder, and every one is unclustered |
| TableProperties.InsertedNewFaceIsQueued | photoweb/src/com/backend/dao/FaceTableDao.java:177-199 | inserting an unclustered real face puts one more copy of it in the queue |
| TableProperties.UpdatedFaceLeavesQueue | photoweb/src/com/backend/dao/FaceTableDao.java:282-284 | after a token is given a real cluster, no face with that token is in the queue |
| TableProperties.GetFaceAfterInsert | photoweb/src/com/backend/dao/FaceTableDao.java:213-238 | a face with a fresh, non-blank token is found by that token after it is inserted |
| TableProperties.GetFaceAfterUpdate | photoweb/src/com/backend/dao/FaceTableDao.java:213-238 | after a point update, looking the token up shows the new cluster |
| TableProperties.RelabelRowCount | photoweb/src/com/backend/dao/FaceTableDao.java:420-422 | after relabelling, one row counts towards a face of the new cluster exactly when it or its old-cluster version equals that face |
| TableProperties.RelabelMultiset | photoweb/src/com/backend/dao/FaceTableDao.java:420-422 | relabelling moves rows and does not copy them: each new-cluster face occurs as often as before plus its old-cluster versions |
| TableProperties.MergeEmptiesOldCluster | photoweb/src/com/backend/dao/FaceTableDao.java:409-433 | after merging two distinct real clusters, the old cluster has no members |
| TableProperties.MergeFillsNewCluster | photoweb/src/com/backend/dao/FaceTableDao.java:409-433 | after the merge, the new cluster holds its own members plus the old cluster's, relabelled, each as often as before |
| PlaceholderNavigation.NavigateFromPlaceholderIsNull | photoweb/src/com/backend/dao/FaceTableDao.java:454-458 | while every placeholder is unclustered, navigating from the token "null" returns null |
| PlaceholderNavigation.PlaceholdersShareToken | photoweb/src/com/backend/dao/FaceTableDao.java:168-174 | two placeholder rows put the token "null" on two rows, so a token need not be on one row only |
| PlaceholderNavigation.RecordsCanRepeatToken | photoweb/src/com/backend/dao/FaceTableDao.java:35-79 | adding the same face twice puts its token on two rows: inserts do not check for an existing token |

## Left out

- Locking: the read and write locks only serialise access, and each operation is modelled as one atomic step.
- JDBC and the SQL engine: statements are modelled as functions on a sequence of rows, so prepared statements, result sets and closing them are not modelled.
- Store failures are not modelled. On a failure the `catch` blocks log it and carry on. `checkAlreadyDetect` then returns false, and `getFace`, `getAllNewFaces` and navigation return null. `getFacesByID` (line 406) and `getAllValidFaceID` (line 367) return the list filled so far, which may be partial. The write operations return with the statement possibly not applied. The one exception the model does follow is the null dereference inside navigation for a cluster id below -1.
- `checkAndCreateTable` (FaceTableDao.java lines 81-106) creates the schema and index. It only does I/O and has no effect on row contents.
- The singleton instance, the constructor and logging are not modelled.
- `FacerUtils.sortByQuality` is not part of this model. It and the SQL `order by quality` are both modelled by the same abstract total preorder `leq` over the quality text.
- Neighbours.OrderedCluster: the contract does not fix the order of faces of equal quality. The model's `SortBy` is stable, so for "next" tied faces keep table order, and for "previous" the `Reverse` puts them in reverse table order. The Java sort's tie order is not known here.
- TopClusters.GetAllValidFaceID: clusters of equal size appear in order of their first row. SQL leaves that order unspecified, so the contract states only the size order.
- FaceTable.GetFace: SQL does not order the rows of `select ... where facetoken=?`. The model takes the first row in table order. The store does not check token uniqueness: the index on (facetoken, etag, faceid) is not unique, `insertOneRecord` inserts without a lookup, and the dedup gate and the insert take the lock separately (`RecordsCanRepeatToken`). When callers store each real face once, only one row matches. The placeholder token "null" is shared by every face-less photo, and looking it up gives the first placeholder.
- The filter `faceid!='-1'` compares a BIGINT column with text. It is modelled as the numeric test `faceid != -1`.
- The `etag` column is declared `STRING(32,32)`, but its length is not enforced.
- `faceid` is a Java `long`. The model uses unbounded integers, because no operation does arithmetic on it.
- Strings are sequences of Unicode characters rather than UTF-16 units. `JavaText.IsWhitespace` lists Java's whitespace code points and leaves out U+180E, whose classification depends on the Java version.
- `addEmptyRecords` takes a `FileInfo`. Only its `getHash256()` value reaches the store, so the model takes the hash directly. A null `FileInfo` throws at line 167, outside any `try`, so the exception reaches the caller. The model's `hash: string` parameter cannot express that case.
- The fields of a `Face` are never null in the model. Java rows with null text columns are not modelled.
- Neighbours.NavigateStaysOnOneSide and Neighbours.AnchorPositionHoldsAnchor require the anchor's token to be on one row only (`TokenOnce`). Detection gives each real face its own token. Placeholder rows share the token "null" (`PlaceholdersShareToken`). While they stay unclustered, navigation from that token returns null before any scan (`NavigateFromPlaceholderIsNull`). Without the condition, the scan could start at another row with the same token.

## Findings

| source | as written | input that shows it | evidently intended | confidence | as-written member | corrected member |
|---|---|---|---|---|---|---|
| photoweb/src/com/backend/dao/FaceTableDao.java:478-498 | `maxCount` becomes `count` when `count <= 0`, but the counter is checked only after a face has been added, so one face is returned whenever a face follows the anchor, even for `count <= 0` (when the anchor is last, the result is empty: `ZeroCountAnchorLastIsEmpty`) | a cluster of two faces, the second of strictly higher quality, anchor at the first, `count = 0`, walking forwards: the result is the second face | a non-positive count returns no faces; the result never has more than `max(0, min(count, size))` faces | medium; not executed | Neighbours.ZeroCountStillReturnsOne | Neighbours.RunAfterCapped |

=== FILE: face_table.dfy ===
/** The `faces` table of detected faces and the store operations over it.
    The table is the sequence of its rows in insertion order; every operation
    is atomic (the store's read/write lock) and never fails. */
module FaceTable {

  import opened Wrappers
  import opened Sequences
  import opened JavaText

  /** The text the store writes into `facetoken`, `pos`, `gender` and `age`
      of the placeholder row of a photo with no detected face. */
  const NullText: string := "null"

  /** The `faceid` of a face not yet assigned to a cluster. */
  const Unclustered: int := -1

  /** One row of `faces`: the face `facetoken` found in the photo whose
      content hash is `etag`, at `pos`, in cluster `faceid`. `faceid` is a
      Java `long`; no operation does arithmetic on it. */
  datatype Face = Face(
    facetoken: string,
    etag: string,
    pos: string,
    faceid: int,
    quality: string,
    gender: string,
    age: string)

  type Table = seq<Face>

  /** `a` and `b` agree on every column except possibly `faceid`. */
  predicate SameButFaceId(a: Face, b: Face) {
    a.(faceid := b.faceid) == b
  }

  /** The rows an `update faces set faceid=? where ...` statement rewrites. */
  datatype Selector = TokenIs(token: string) | FaceIdIs(id: int)

  predicate Selects(s: Selector, f: Face) {
    match s
    case TokenIs(token) => f.facetoken == token
    case FaceIdIs(id) => f.faceid == id
  }

  /** The placeholder row of a photo with no detected face. */
  function EmptyRecord(hash: string): Face {
    Face(NullText, hash, NullText, Unclustered, "0", NullText, NullText)
  }

  /** A face waiting for the clustering pass (placeholders excluded). */
  predicate IsNewFace(f: Face) {
    f.faceid == Unclustered && f.facetoken != NullText
  }

  function HasEtag(e: string): Face -> bool {
    (f: Face) => f.etag == e
  }

  function LacksEtag(e: string): Face -> bool {
    (f: Face) => f.etag != e
  }

  function HasToken(token: string): Face -> bool {
    (f: Face) => f.facetoken == token
  }

  function InCluster(id: int): Face -> bool {
    (f: Face) => f.faceid == id
  }

  /** Rows are compared by their quality text under `leq`. */
  function QualityLe(leq: (string, string) -> bool): (Face, Face) -> bool {
    (a: Face, b: Face) => leq(a.quality, b.quality)
  }

  lemma QualityLeIsPreorder(leq: (string, string) -> bool)
    requires TotalPreorder(leq)
    ensures TotalPreorder(QualityLe(leq))
  {
    var le := QualityLe(leq);
    forall x: Face, y: Face
      ensures le(x, y) || le(y, x)
    {
      assert leq(x.quality, y.quality) || leq(y.quality, x.quality);
    }
    forall x: Face, y: Face, z: Face | le(x, y) && le(y, z)
      ensures le(x, z)
    {
      assert leq(x.quality, y.quality) && leq(y.quality, z.quality);
    }
  }

  // ---------------------------------------------------------------- inserts

  /** `insertOneRecord`: a null face changes nothing; otherwise exactly one
      row, equal to the face, is appended after the existing rows. */
  function InsertOneRecord(t: Table, face: Option<Face>): (r: Table)
    ensures face.Null? ==> r == t
    ensures face.Some? ==> |r| == |t| + 1 && r[..|t|] == t && r[|t|] == face.value
  {
    match face
    case Null => t
    case Some(f) => t + [f]
  }

  /** The `for` loop of `addRecords`: one `insertOneRecord` per element. */
  function InsertEach(t: Table, faces: seq<Option<Face>>): (r: Table)
    ensures r == t + NonNull(faces)
  {
    if faces == [] then t
    else
      var last := faces[|faces| - 1];
      assert faces == faces[..|faces| - 1] + [last];
      InsertOneRecord(InsertEach(t, faces[..|faces| - 1]), last)
  }

  /** `addRecords`: the table gains the non-null faces of the list, in list
      order; a null or empty list changes nothing. */
  function AddRecords(t: Table, faces: Option<seq<Option<Face>>>): (r: Table)
    ensures faces.Null? ==> r == t
    ensures faces.Some? ==> r == t + NonNull(faces.value)
  {
    match faces
    case Null => t
    case Some(fs) => if fs == [] then t else InsertEach(t, fs)
  }

  /** `addEmptyRecords`: appends the placeholder row of photo `hash`. */
  function AddEmptyRecords(t: Table, hash: string): (r: Table)
    ensures |r| == |t| + 1 && r[..|t|] == t
    ensures r[|t|].etag == hash && r[|t|].facetoken == NullText
    ensures r[|t|].faceid == Unclustered && r[|t|].quality == "0"
    ensures r[|t|].pos == NullText && r[|t|].gender == NullText && r[|t|].age == NullText
  {
    InsertOneRecord(t, Some(EmptyRecord(hash)))
  }

  // ---------------------------------------------------------------- queries

  /** `checkAlreadyDetect`: a blank etag is never detected; otherwise the
      photo is detected exactly when some row carries its etag. */
  function CheckAlreadyDetect(t: Table, etag: Option<string>): (r: bool)
    ensures r <==> !IsBlank(etag) && exists i :: 0 <= i < |t| && t[i].etag == etag.value
  {
    if IsBlank(etag) then false
    else FindFirst(HasEtag(etag.value), t).Some?
  }

  /** Position of the first row of `s` with token `token`, if any. */
  function TokenIndex(s: seq<Face>, token: string): (r: Option<nat>)
    ensures r.Null? <==> forall j :: 0 <= j < |s| ==> s[j].facetoken != token
    ensures r.Some? ==> r.value < |s| && s[r.value].facetoken == token
    ensures r.Some? ==> forall j :: 0 <= j < r.value ==> s[j].facetoken != token
  {
    var r := FindFirst(HasToken(token), s);
    assert r.Some? ==> HasToken(token)(s[r.value]);
    assert r.Some? ==> forall j :: 0 <= j < r.value ==> !HasToken(token)(s[j]);
    r
  }

  /** `getFace`: a blank token finds nothing; otherwise the first row with
      that token, if there is one. */
  function GetFace(t: Table, token: Option<string>): (r: Option<Face>)
    ensures IsBlank(token) ==> r.Null?
    ensures !IsBlank(token) ==>
      (r.Some? <==> exists i :: 0 <= i < |t| && t[i].facetoken == token.value)
    ensures r.Some? ==> r.value.facetoken == token.value
    ensures r.Some? ==> exists i :: (0 <= i < |t| && t[i] == r.value
      && forall j :: 0 <= j < i ==> t[j].facetoken != token.value)
  {
    if IsBlank(token) then Null
    else
      match TokenIndex(t, token.value)
      case Null => Null
      case Some(i) => Some(t[i])
  }

  /** `getAllNewFaces`: exactly the unclustered real faces, each as often as
      in the table, in non-decreasing quality order. */
  function GetAllNewFaces(leq: (string, string) -> bool, t: Table): (r: seq<Face>)
    requires TotalPreorder(leq)
    ensures forall x :: multiset(r)[x] == if IsNewFace(x) then multiset(t)[x] else 0
    ensures forall i, j :: 0 <= i < j < |r| ==> leq(r[i].quality, r[j].quality)
  {
    QualityLeIsPreorder(leq);
    SortBy(QualityLe(leq), Filter(IsNewFace, t))
  }

  /** `getFacesByID`: null for a negative id; otherwise exactly the rows of
      cluster `id`, each as often as in the table. */
  function GetFacesByID(t: Table, id: int): (r: Option<seq<Face>>)
    ensures r.Null? <==> id < 0
    ensures r.Some? ==> forall x :: multiset(r.value)[x] == if x.faceid == id then multiset(t)[x] else 0
    ensures r.Some? ==> forall i :: 0 <= i < |r.value| ==> r.value[i].faceid == id
  {
    if id < 0 then Null else Some(Filter(InCluster(id), t))
  }

  // ---------------------------------------------------------------- updates

  /** One row after `update faces set faceid=id where <s>`. */
  function RelabelRow(s: Selector, id: int, f: Face): (g: Face)
    ensures SameButFaceId(g, f)
    ensures g.faceid == if Selects(s, f) then id else f.faceid
  {
    if Selects(s, f) then f.(faceid := id) else f
  }

  /** One `update faces set faceid=id where <s>` statement. */
  function Relabel(t: Table, s: Selector, id: int): (r: Table)
    ensures |r| == |t|
    ensures forall i :: 0 <= i < |t| ==> r[i] == RelabelRow(s, id, t[i])
  {
    if t == [] then []
    else [RelabelRow(s, id, t[0])] + Relabel(t[1..], s, id)
  }

  /** `updateFaceID(Face)`: every row with the face's token moves to the
      face's cluster; no other row or column changes; null changes nothing. */
  function UpdateFaceId(t: Table, f: Option<Face>): (r: Table)
    ensures |r| == |t|
    ensures forall i :: 0 <= i < |t| ==> SameButFaceId(r[i], t[i])
    ensures forall i :: 0 <= i < |t| ==>
      r[i].faceid == if f.Some? && t[i].facetoken == f.value.facetoken then f.value.faceid else t[i].faceid
  {
    match f
    case Null => t
    case Some(g) => Relabel(t, TokenIs(g.facetoken), g.faceid)
  }

  /** `f` is a non-null face with token `token`. */
  predicate Names(f: Option<Face>, token: string) {
    f.Some? && f.value.facetoken == token
  }

  /** No face of `fs` names `token`. */
  predicate NoneNames(fs: seq<Option<Face>>, token: string) {
    forall k :: 0 <= k < |fs| ==> !Names(fs[k], token)
  }

  /** `fs[k]` is the last face of `fs` naming `token`. */
  predicate LastNames(fs: seq<Option<Face>>, k: int, token: string) {
    0 <= k < |fs| && Names(fs[k], token) && forall k' :: k < k' < |fs| ==> !Names(fs[k'], token)
  }

  /** The `for` loop of `updateFaceID(List)`: a row ends in the cluster of
      the LAST face in the list naming its token, and keeps its cluster when
      no face names it. */
  function UpdateEach(t: Table, fs: seq<Option<Face>>): (r: Table)
    ensures |r| == |t|
    ensures forall i :: 0 <= i < |t| ==> SameButFaceId(r[i], t[i])
    ensures forall i :: 0 <= i < |t| && NoneNames(fs, t[i].facetoken) ==> r[i].faceid == t[i].faceid
    ensures forall i, k :: 0 <= i < |t| && LastNames(fs, k, t[i].facetoken) ==> r[i].faceid == fs[k].value.faceid
  {
    if fs == [] then t
    else
      NamingSplitsAtLast(fs);
      UpdateFaceId(UpdateEach(t, fs[..|fs| - 1]), fs[|fs| - 1])
  }

  /** How naming a token in `fs` splits into its last element and the rest. */
  lemma NamingSplitsAtLast(fs: seq<Option<Face>>)
    requires fs != []
    ensures forall token :: NoneNames(fs, token) <==>
      NoneNames(fs[..|fs| - 1], token) && !Names(fs[|fs| - 1], token)
    ensures forall token, k :: LastNames(fs, k, token) && k < |fs| - 1 <==>
      LastNames(fs[..|fs| - 1], k, token) && !Names(fs[|fs| - 1], token)
  {
  }

  /** `updateFaceID(List)`: the list's point updates applied in order; a
      null or empty list changes nothing. */
  function UpdateFaceIds(t: Table, faces: Option<seq<Option<Face>>>): (r: Table)
    ensures faces.Null? ==> r == t
    ensures |r| == |t|
    ensures forall i :: 0 <= i < |t| ==> SameButFaceId(r[i], t[i])
    ensures faces.Some? ==> forall i :: 0 <= i < |t| && NoneNames(faces.value, t[i].facetoken) ==>
      r[i].faceid == t[i].faceid
    ensures faces.Some? ==> forall i, k :: 0 <= i < |t| && LastNames(faces.value, k, t[i].facetoken) ==>
      r[i].faceid == faces.value[k].value.faceid
  {
    match faces
    case Null => t
    case Some(fs) => if fs == [] then t else UpdateEach(t, fs)
  }

  /** `updateFaceID(long, long)`: merges cluster `oldId` into cluster `newId`.
      Nothing changes when either id is the unclustered sentinel; otherwise
      exactly the rows of cluster `oldId` change, and only in `faceid`. */
  function ReassignFaceId(t: Table, oldId: int, newId: int): (r: Table)
    ensures oldId == Unclustered || newId == Unclustered ==> r == t
    ensures |r| == |t|
    ensures forall i :: 0 <= i < |t| ==> SameButFaceId(r[i], t[i])
    ensures forall i :: 0 <= i < |t| ==>
      r[i].faceid == if oldId != Unclustered && newId != Unclustered && t[i].faceid == oldId then newId else t[i].faceid
  {
    if oldId == Unclustered || newId == Unclustered then t
    else Relabel(t, FaceIdIs(oldId), newId)
  }

  /** `deleteOneFile`: a null etag changes nothing; otherwise exactly the
      rows of that photo go and every other row stays, as often as before. */
  function DeleteOneFile(t: Table, etag: Option<string>): (r: Table)
    ensures etag.Null? ==> r == t
    ensures etag.Some? ==> forall x :: multiset(r)[x] == if x.etag == etag.value then 0 else multiset(t)[x]
  {
    match etag
    case Null => t
    case Some(e) => Filter(LacksEtag(e), t)
  }
}

=== FILE: java_text.dfy ===
/** The two Java string tests the store relies on. */
module JavaText {

  import opened Wrappers

  /** `Character.isWhitespace`: the Unicode space, line and paragraph
      separators other than the non-breaking ones (U+00A0, U+2007, U+202F),
      plus the ASCII controls U+0009..U+000D and U+001C..U+001F. */
  predicate IsWhitespace(c: char) {
    var n := c as int;
    || (0x09 <= n <= 0x0D)
    || (0x1C <= n <= 0x20)
    || n == 0x1680
    || (0x2000 <= n <= 0x200A && n != 0x2007)
    || n == 0x2028 || n == 0x2029
    || n == 0x205F || n == 0x3000
  }

  /** `StringUtils.isBlank`: null, empty, or whitespace only. */
  predicate IsBlank(s: Option<string>) {
    match s
    case Null => true
    case Some(str) => forall i :: 0 <= i < |str| ==> IsWhitespace(str[i])
  }
}

=== FILE: neighbours.dfy ===
/** `getNextNineFileByHashStr`: quality-ranked navigation inside the
    cluster of an anchor face. */
module Neighbours {

  import opened Wrappers
  import opened Sequences
  import opened JavaText
  import opened FaceTable

  /** The cluster's rows sorted by quality (`FacerUtils.sortByQuality`),
      reversed when walking backwards (`isnext` false). */
  function OrderedCluster(leq: (string, string) -> bool, members: seq<Face>, isnext: bool): (s: seq<Face>)
    requires TotalPreorder(leq)
    ensures multiset(s) == multiset(members)
    ensures isnext ==> forall i, j :: 0 <= i < j < |s| ==> leq(s[i].quality, s[j].quality)
    ensures !isnext ==> forall i, j :: 0 <= i < j < |s| ==> leq(s[j].quality, s[i].quality)
  {
    QualityLeIsPreorder(leq);
    var sorted := SortBy(QualityLe(leq), members);
    if isnext then sorted
    else
      var rev := Reverse(sorted);
      assert multiset(rev) == multiset(sorted) by {
        ReverseMultiset(sorted);
      }
      rev
  }

  lemma {:induction false} ReverseMultiset<T>(s: seq<T>)
    ensures multiset(Reverse(s)) == multiset(s)
  {
    if s != [] {
      ReverseMultiset(s[1..]);
      assert s == [s[0]] + s[1..];
    }
  }

  /** What the scan of `s` collects, as written: the rows right after the
      first row with the anchor token, at most `max(1, min(|s|, count))` of
      them (the counter is bumped before it is tested); nothing when the
      token is absent. */
  function RunAfter(s: seq<Face>, token: string, count: int): (r: seq<Face>)
    ensures TokenIndex(s, token).Null? ==> r == []
    ensures |r| <= Max(1, Min(count, |s|))
    ensures TokenIndex(s, token).Some? ==>
      var p := TokenIndex(s, token).value;
      p + 1 + |r| <= |s| && r == s[p + 1 .. p + 1 + |r|]
      && (|r| < Max(1, Min(count, |s|)) ==> p + 1 + |r| == |s|)
  {
    match TokenIndex(s, token)
    case Null => []
    case Some(p) => s[p + 1 .. p + 1 + Min(|s| - p - 1, Max(1, Min(|s|, count)))]
  }

  /** The whole navigation as a function: null for an unknown or blank
      token, for an unclustered anchor, and for a negative cluster id (where
      `getFacesByID` returns null and a later use of `allf` throws, at the
      latest `allf.size()`, which the catch turns into null). */
  function Navigate(leq: (string, string) -> bool, t: Table, id: Option<string>, count: int, isnext: bool)
    : (r: Option<seq<Face>>)
    requires TotalPreorder(leq)
    ensures r.Null? <==> GetFace(t, id).Null? || GetFace(t, id).value.faceid < 0
  {
    match GetFace(t, id)
    case Null => Null
    case Some(f) =>
      if f.faceid == Unclustered then Null
      else
        match GetFacesByID(t, f.faceid)
        case Null => Null
        case Some(members) => Some(RunAfter(OrderedCluster(leq, members, isnext), f.facetoken, count))
  }

  /** `getNextNineFileByHashStr(id, count, isnext)`: resolves the anchor,
      orders its cluster and scans it; proved to compute `Navigate`. */
  method GetNextNineFileByHashStr(leq: (string, string) -> bool, t: Table, id: Option<string>, count: int, isnext: bool)
    returns (r: Option<seq<Face>>)
    requires TotalPreorder(leq)
    ensures r == Navigate(leq, t, id, count, isnext)
    ensures r.Null? <==> GetFace(t, id).Null? || GetFace(t, id).value.faceid < 0
    ensures r.Some? ==> |r.value| <= Max(1, Min(count, |GetFacesByID(t, GetFace(t, id).value.faceid).value|))
  {
    var f := if id.Some? then GetFace(t, id) else Null;
    if f.Null? {
      return Null;
    }
    var faceId := f.value.faceid;
    if faceId == Unclustered {
      return Null;
    }
    var found := GetFacesByID(t, faceId);
    if found.Null? {
      return Null;
    }
    var allf := OrderedCluster(leq, found.value, isnext);
    var flst := ScanAfter(allf, f.value.facetoken, count);
    return Some(flst);
  }

  /** The `for` loop of the navigation: skips to the first row with the
      anchor token, then collects the rows after it, stopping once the
      counter, bumped after each row, reaches `min(|allf|, count)`. */
  method ScanAfter(allf: seq<Face>, token: string, count: int) returns (flst: seq<Face>)
    ensures flst == RunAfter(allf, token, count)
  {
    var maxCount := if |allf| < count then |allf| else count;
    ghost var anchor := TokenIndex(allf, token);
    ghost var want := RunAfter(allf, token, count);
    assert anchor.Some? ==>
      want == allf[anchor.value + 1 .. anchor.value + 1 + Min(|allf| - anchor.value - 1, Max(1, maxCount))];
    var c := 0;
    flst := [];
    var start := false;
    var i := 0;
    while i < |allf|
      invariant 0 <= i <= |allf|
      invariant start <==> anchor.Some? && anchor.value < i
      invariant !start ==> flst == []
      invariant start ==> flst == allf[anchor.value + 1 .. i]
      invariant c == |flst|
      invariant c == 0 || c < maxCount
    {
      var face := allf[i];
      if !start && face.facetoken == token {
        start := true;
      } else if start {
        SliceExtend(allf, anchor.value + 1, i);
        flst := flst + [face];
        c := c + 1;
        if c >= maxCount {
          assert c == Max(1, maxCount);
          break;
        }
      }
      i := i + 1;
    }
  }

  /** Growing a slice by one element appends that element. */
  lemma SliceExtend<T>(s: seq<T>, lo: nat, hi: nat)
    requires lo <= hi < |s|
    ensures s[lo .. hi + 1] == s[lo .. hi] + [s[hi]]
  {
  }

  // ------------------------------------------------------------ properties

  /** The anchor row belongs to its own cluster, so the scan always finds
      its token: the "anchor missing, empty list" outcome cannot occur when
      the lookup and the cluster read see the same table. */
  lemma AnchorAlwaysFound(leq: (string, string) -> bool, t: Table, id: Option<string>, isnext: bool)
    requires TotalPreorder(leq)
    requires GetFace(t, id).Some? && GetFace(t, id).value.faceid >= 0
    ensures var f := GetFace(t, id).value;
      TokenIndex(OrderedCluster(leq, GetFacesByID(t, f.faceid).value, isnext), f.facetoken).Some?
  {
    var f := GetFace(t, id).value;
    var s := OrderedCluster(leq, GetFacesByID(t, f.faceid).value, isnext);
    var i :| 0 <= i < |t| && t[i] == f;
    assert f in multiset(t);
    assert f in multiset(s);
    var j :| 0 <= j < |s| && s[j] == f;
  }

  /** At most one row of `t` carries `token`. Placeholder rows all share
      the token "null", so this is a property of one real face's token, not
      of the whole table. */
  ghost predicate TokenOnce(t: Table, token: string) {
    forall i, j :: 0 <= i < j < |t| && t[i].facetoken == token ==> t[j].facetoken != token
  }

  /** When the anchor's token is on one row only, the row at the anchor's position in the ordered
      cluster is the anchor face itself. */
  lemma AnchorPositionHoldsAnchor(leq: (string, string) -> bool, t: Table, token: string, isnext: bool)
    requires TotalPreorder(leq) && TokenOnce(t, token)
    requires GetFace(t, Some(token)).Some? && GetFace(t, Some(token)).value.faceid >= 0
    ensures var f := GetFace(t, Some(token)).value;
      var s := OrderedCluster(leq, GetFacesByID(t, f.faceid).value, isnext);
      TokenIndex(s, token).Some? && s[TokenIndex(s, token).value] == f
  {
    var f := GetFace(t, Some(token)).value;
    var members := GetFacesByID(t, f.faceid).value;
    var s := OrderedCluster(leq, members, isnext);
    AnchorAlwaysFound(leq, t, Some(token), isnext);
    var p := TokenIndex(s, token).value;
    assert s[p] in multiset(members);
    assert s[p] in multiset(t);
    var a :| 0 <= a < |t| && t[a] == s[p];
    var b :| 0 <= b < |t| && t[b] == f;
  }

  /** The `k`-th row of the run is the `k`-th row after the anchor. */
  lemma RunIndex(s: seq<Face>, token: string, count: int, k: nat)
    requires TokenIndex(s, token).Some?
    requires k < |RunAfter(s, token, count)|
    ensures TokenIndex(s, token).value + 1 + k < |s|
    ensures RunAfter(s, token, count)[k] == s[TokenIndex(s, token).value + 1 + k]
  {
    var p := TokenIndex(s, token).value;
    var r := RunAfter(s, token, count);
    assert p + 1 + |r| <= |s| && r == s[p + 1 .. p + 1 + |r|];
  }

  /** A row of a reordered cluster is a row of the table in that cluster. */
  lemma ClusterRow(t: Table, id: int, members: seq<Face>, s: seq<Face>, x: Face)
    requires GetFacesByID(t, id) == Some(members)
    requires multiset(s) == multiset(members)
    requires x in s
    ensures x in t && x.faceid == id
  {
    assert x in multiset(members);
    assert x in multiset(t);
  }

  /** When the anchor's token is on one row only, navigation returns rows of the anchor's own
      cluster, all at least as good as the anchor when walking forwards and
      at most as good when walking backwards. */
  lemma NavigateStaysOnOneSide(leq: (string, string) -> bool, t: Table, token: string, count: int, isnext: bool)
    requires TotalPreorder(leq) && TokenOnce(t, token)
    requires GetFace(t, Some(token)).Some? && GetFace(t, Some(token)).value.faceid >= 0
    ensures Navigate(leq, t, Some(token), count, isnext).Some?
    ensures var f := GetFace(t, Some(token)).value;
      var r := Navigate(leq, t, Some(token), count, isnext).value;
      forall k :: 0 <= k < |r| ==>
        && r[k] in t
        && r[k].faceid == f.faceid
        && (isnext ==> leq(f.quality, r[k].quality))
        && (!isnext ==> leq(r[k].quality, f.quality))
  {
    var f := GetFace(t, Some(token)).value;
    var members := GetFacesByID(t, f.faceid).value;
    var s := OrderedCluster(leq, members, isnext);
    var r := RunAfter(s, f.facetoken, count);
    assert Navigate(leq, t, Some(token), count, isnext) == Some(r);
    AnchorPositionHoldsAnchor(leq, t, token, isnext);
    var p := TokenIndex(s, token).value;
    forall k | 0 <= k < |r|
      ensures r[k] in t && r[k].faceid == f.faceid
      ensures isnext ==> leq(f.quality, r[k].quality)
      ensures !isnext ==> leq(r[k].quality, f.quality)
    {
      RunIndex(s, token, count, k);
      ClusterRow(t, f.faceid, members, s, r[k]);
    }
  }

  /** As written, a non-positive `count` still yields one row whenever the
      anchor is not the last of its ordered cluster: the counter is bumped
      before it is compared with `min(|allf|, count)`. */
  lemma ZeroCountStillReturnsOne(s: seq<Face>, token: string, count: int)
    requires count <= 0
    requires TokenIndex(s, token).Some? && TokenIndex(s, token).value < |s| - 1
    ensures |RunAfter(s, token, count)| == 1
  {
  }

  /** A concrete instance: two faces of cluster 7, the second of strictly
      higher quality, so every correct sort puts them in this order;
      navigating forwards from the first with `count` 0 returns the second. */
  lemma ZeroCountExample(leq: (string, string) -> bool)
    requires TotalPreorder(leq)
    requires leq("1", "2") && !leq("2", "1")
    ensures var a := Face("a", "h1", "p", 7, "1", "m", "30");
      var b := Face("b", "h2", "p", 7, "2", "f", "31");
      Navigate(leq, [a, b], Some("a"), 0, true) == Some([b])
  {
    var a := Face("a", "h1", "p", 7, "1", "m", "30");
    var b := Face("b", "h2", "p", 7, "2", "f", "31");
    ExampleAnchor(a, b);
    ExampleCluster(a, b);
    ExampleOrder(leq, a, b);
    ExampleRun(a, b);
  }

  /** Example step: the token "a" names the first row. */
  lemma ExampleAnchor(a: Face, b: Face)
    requires a.facetoken == "a" && b.facetoken == "b"
    ensures TokenIndex([a, b], "a") == Some(0)
    ensures GetFace([a, b], Some("a")) == Some(a)
  {
    assert [a, b][0].facetoken == "a";
    assert !IsBlank(Some("a")) by {
      assert "a"[0] == 'a' && !IsWhitespace('a');
    }
  }

  /** Example step: two rows of cluster 7 form the whole cluster. */
  lemma ExampleCluster(a: Face, b: Face)
    requires a.faceid == 7 && b.faceid == 7
    ensures GetFacesByID([a, b], 7) == Some([a, b])
  {
    var t := [a, b];
    assert t[1..] == [b] && [b][1..] == [];
    assert Filter(InCluster(7), [b]) == [b];
    assert Filter(InCluster(7), t) == t;
  }

  /** Example step: a strictly better second row stays second. */
  lemma ExampleOrder(leq: (string, string) -> bool, a: Face, b: Face)
    requires TotalPreorder(leq)
    requires leq(a.quality, b.quality) && !leq(b.quality, a.quality)
    ensures OrderedCluster(leq, [a, b], true) == [a, b]
  {
    QualityLeIsPreorder(leq);
    assert QualityLe(leq)(a, b);
    var t := [a, b];
    assert t[1..] == [b] && [b][1..] == [];
    assert SortBy(QualityLe(leq), [b]) == [b];
    assert SortBy(QualityLe(leq), t) == Insert(QualityLe(leq), a, [b]);
  }

  /** Example step: a count of zero still yields the row after the anchor. */
  lemma ExampleRun(a: Face, b: Face)
    requires a.facetoken == "a" && b.facetoken == "b"
    ensures RunAfter([a, b], "a", 0) == [b]
  {
    var t := [a, b];
    ExampleAnchor(a, b);
    assert Min(|t| - 1, Max(1, Min(|t|, 0))) == 1;
    assert t[1..2] == [b];
  }

  /** With a non-positive `count` but the anchor last in its ordered
      cluster, no row follows it and the run is empty. */
  lemma ZeroCountAnchorLastIsEmpty(s: seq<Face>, token: string, count: int)
    requires count <= 0
    requires TokenIndex(s, token).Some? && TokenIndex(s, token).value == |s| - 1
    ensures RunAfter(s, token, count) == []
  {
  }

  /** The evidently intended run: at most `count` rows, none when `count`
      is not positive. */
  function RunAfterCapped(s: seq<Face>, token: string, count: int): (r: seq<Face>)
    ensures |r| <= Max(0, Min(count, |s|))
    ensures count <= 0 ==> r == []
    ensures TokenIndex(s, token).Null? ==> r == []
    ensures TokenIndex(s, token).Some? ==>
      var p := TokenIndex(s, token).value;
      p + 1 + |r| <= |s| && r == s[p + 1 .. p + 1 + |r|]
      && (|r| < Min(count, |s|) ==> p + 1 + |r| == |s|)
  {
    match TokenIndex(s, token)
    case Null => []
    case Some(p) => s[p + 1 .. p + 1 + Min(|s| - p - 1, Max(0, Min(|s|, count)))]
  }

  /** The capped run differs from the scan as written only for `count <= 0`. */
  lemma CappedAgreesForPositiveCount(s: seq<Face>, token: string, count: int)
    requires count >= 1
    ensures RunAfterCapped(s, token, count) == RunAfter(s, token, count)
  {
  }
}

=== FILE: placeholder_navigation.dfy ===
/** When a token can be on several rows, and how the shared placeholder
    token "null" meets navigation: it is on many rows, yet navigating from
    it never reaches the scan. */
module PlaceholderNavigation {

  import opened Wrappers
  import opened Sequences
  import opened FaceTable
  import opened Neighbours
  import opened TableProperties

  /** Navigation from the placeholder token returns null: the first row with
      that token is a placeholder, hence unclustered. */
  lemma NavigateFromPlaceholderIsNull(leq: (string, string) -> bool, t: Table, count: int, isnext: bool)
    requires TotalPreorder(leq) && PlaceholdersUnclustered(t)
    ensures Navigate(leq, t, Some(NullText), count, isnext) == Null
  {
  }

  /** Two face-less photos put the token "null" on two rows, so tokens are
      unique only among real faces. */
  lemma PlaceholdersShareToken(t: Table, h1: string, h2: string)
    ensures !TokenOnce(AddEmptyRecords(AddEmptyRecords(t, h1), h2), NullText)
  {
    var r := AddEmptyRecords(AddEmptyRecords(t, h1), h2);
    assert r[|t|].facetoken == NullText && r[|t| + 1].facetoken == NullText;
  }

  /** Inserting does not look for an existing token: adding the same face
      twice puts its token on two rows. */
  lemma RecordsCanRepeatToken(t: Table, f: Face)
    ensures !TokenOnce(AddRecords(AddRecords(t, Some([Some(f)])), Some([Some(f)])), f.facetoken)
  {
    var r := AddRecords(AddRecords(t, Some([Some(f)])), Some([Some(f)]));
    assert NonNull([Some(f)]) == [f];
    assert r[|t|].facetoken == f.facetoken && r[|t| + 1].facetoken == f.facetoken;
  }
}

=== FILE: sequences.dfy ===
/** Generic sequence operations the table queries are built from: filtering,
    first-match search, stable insertion sort under a total preorder, and
    reversal. */
module Sequences {

  import opened Wrappers

  /** The present elements of a list of references, in list order (the
      elements a `for (T x : list)` loop sees that are not null), each as
      often as it occurs in the list. */
  function NonNull<T(!new)>(s: seq<Option<T>>): (r: seq<T>)
    ensures |r| <= |s|
    ensures forall x :: x in r <==> Some(x) in s
    ensures forall x :: multiset(r)[x] == multiset(s)[Some(x)]
  {
    if s == [] then []
    else
      var init := NonNull(s[..|s| - 1]);
      assert s == s[..|s| - 1] + [s[|s| - 1]];
      match s[|s| - 1]
      case Null => init
      case Some(x) => init + [x]
  }

  /** The smaller of two integers (Java's `a < b ? a : b`). */
  function Min(a: int, b: int): (m: int)
    ensures m <= a && m <= b && (m == a || m == b)
  {
    if a < b then a else b
  }

  /** The larger of two integers. */
  function Max(a: int, b: int): (m: int)
    ensures a <= m && b <= m && (m == a || m == b)
  {
    if a < b then b else a
  }

  /** `le` is total and transitive (hence reflexive): ties are allowed, as
      between two faces of equal quality. */
  ghost predicate TotalPreorder<T(!new)>(le: (T, T) -> bool) {
    && (forall x, y :: le(x, y) || le(y, x))
    && (forall x, y, z :: le(x, y) && le(y, z) ==> le(x, z))
  }

  /** Every earlier element is `le` every later one. */
  ghost predicate Sorted<T>(le: (T, T) -> bool, s: seq<T>) {
    forall i, j :: 0 <= i < j < |s| ==> le(s[i], s[j])
  }

  /** Each value occurs at most once. */
  ghost predicate Distinct<T(!new)>(s: seq<T>) {
    forall x :: multiset(s)[x] <= 1
  }

  /** The elements of `s` satisfying `p`, in their original order. */
  function Filter<T(!new)>(p: T -> bool, s: seq<T>): (r: seq<T>)
    ensures |r| <= |s|
    ensures forall i :: 0 <= i < |r| ==> p(r[i])
    ensures forall x :: multiset(r)[x] == if p(x) then multiset(s)[x] else 0
  {
    if s == [] then []
    else
      var rest := Filter(p, s[1..]);
      assert s == [s[0]] + s[1..];
      assert multiset(s) == multiset{s[0]} + multiset(s[1..]);
      if p(s[0]) then
        assert multiset([s[0]] + rest) == multiset{s[0]} + multiset(rest);
        [s[0]] + rest
      else rest
  }

  /** Filtering distributes over concatenation: the kept elements stay in order. */
  lemma {:induction false} FilterAppend<T(!new)>(p: T -> bool, a: seq<T>, b: seq<T>)
    ensures Filter(p, a + b) == Filter(p, a) + Filter(p, b)
  {
    if a == [] {
      assert a + b == b;
    } else {
      assert (a + b)[0] == a[0];
      assert (a + b)[1..] == a[1..] + b;
      FilterAppend(p, a[1..], b);
    }
  }

  lemma FilterSingleton<T(!new)>(p: T -> bool, x: T)
    ensures Filter(p, [x]) == if p(x) then [x] else []
  {
    assert [x][1..] == [];
  }

  /** Position of the first element satisfying `p`, if any. */
  function FindFirst<T>(p: T -> bool, s: seq<T>): (r: Option<nat>)
    ensures r.Null? <==> forall j :: 0 <= j < |s| ==> !p(s[j])
    ensures r.Some? ==> r.value < |s| && p(s[r.value])
    ensures r.Some? ==> forall j :: 0 <= j < r.value ==> !p(s[j])
  {
    if s == [] then Null
    else if p(s[0]) then Some(0)
    else
      match FindFirst(p, s[1..])
      case Null => Null
      case Some(k) => Some(k + 1)
  }

  /** Inserts `x` into sorted `s` before the first element it is `le`. */
  function Insert<T(!new)>(le: (T, T) -> bool, x: T, s: seq<T>): (r: seq<T>)
    requires TotalPreorder(le) && Sorted(le, s)
    ensures multiset(r) == multiset(s) + multiset{x}
    ensures Sorted(le, r)
  {
    if s == [] then [x]
    else if le(x, s[0]) then
      assert forall j :: 0 < j < |s| ==> le(s[0], s[j]);
      [x] + s
    else
      var rest := Insert(le, x, s[1..]);
      assert s == [s[0]] + s[1..];
      InsertHeadBelow(le, x, s, rest);
      [s[0]] + rest
  }

  lemma InsertHeadBelow<T(!new)>(le: (T, T) -> bool, x: T, s: seq<T>, rest: seq<T>)
    requires TotalPreorder(le) && Sorted(le, s) && |s| > 0 && !le(x, s[0])
    requires multiset(rest) == multiset(s[1..]) + multiset{x}
    ensures forall j :: 0 <= j < |rest| ==> le(s[0], rest[j])
  {
    forall j | 0 <= j < |rest|
      ensures le(s[0], rest[j])
    {
      assert rest[j] in multiset(rest);
      if rest[j] != x {
        assert rest[j] in s[1..];
      }
    }
  }

  /** Stable insertion sort: a sorted permutation of `s`. */
  function SortBy<T(!new)>(le: (T, T) -> bool, s: seq<T>): (r: seq<T>)
    requires TotalPreorder(le)
    ensures multiset(r) == multiset(s)
    ensures |r| == |s|
    ensures Sorted(le, r)
  {
    if s == [] then []
    else
      assert s == [s[0]] + s[1..];
      Insert(le, s[0], SortBy(le, s[1..]))
  }

  /** The elements of `s` in the opposite order. */
  function Reverse<T>(s: seq<T>): (r: seq<T>)
    ensures |r| == |s|
    ensures forall i :: 0 <= i < |s| ==> r[i] == s[|s| - 1 - i]
  {
    if s == [] then [] else Reverse(s[1..]) + [s[0]]
  }

  /** A prefix holds no more copies of any value than the whole. */
  lemma PrefixMultiset<T(!new)>(s: seq<T>, k: nat)
    requires k <= |s|
    ensures forall x :: multiset(s[..k])[x] <= multiset(s)[x]
  {
    assert s == s[..k] + s[k..];
  }
}

=== FILE: table_properties.dfy ===
/** Properties that relate several store operations: the dedup gate, the
    placeholder-row invariant, cluster merging and lookups after writes. */
module TableProperties {

  import opened Wrappers
  import opened Sequences
  import opened JavaText
  import opened FaceTable

  // ------------------------------------------------------------ dedup gate

  /** Once any face of photo `h` is added, the photo counts as detected
      (unless its hash is blank, which is never detected). */
  lemma DetectedAfterAddRecords(t: Table, faces: seq<Option<Face>>, k: nat)
    requires k < |faces| && faces[k].Some?
    ensures CheckAlreadyDetect(AddRecords(t, Some(faces)), Some(faces[k].value.etag))
            <==> !IsBlank(Some(faces[k].value.etag))
  {
    var r := AddRecords(t, Some(faces));
    var f := faces[k].value;
    assert f in NonNull(faces);
    var j :| 0 <= j < |NonNull(faces)| && NonNull(faces)[j] == f;
    assert r[|t| + j] == f;
  }

  /** After the placeholder of photo `h` is stored, `h` counts as detected
      exactly when it is not blank. */
  lemma DetectedAfterEmptyRecord(t: Table, h: string)
    ensures CheckAlreadyDetect(AddEmptyRecords(t, h), Some(h)) <==> !IsBlank(Some(h))
  {
    var r := AddEmptyRecords(t, h);
    assert r[|t|].etag == h;
  }

  /** After `deleteOneFile(e)` photo `e` no longer counts as detected. */
  lemma NotDetectedAfterDelete(t: Table, e: string)
    ensures !CheckAlreadyDetect(DeleteOneFile(t, Some(e)), Some(e))
  {
    var r := DeleteOneFile(t, Some(e));
    forall i | 0 <= i < |r|
      ensures r[i].etag != e
    {
      assert r[i] in multiset(r);
    }
  }

  /** Deleting leaves the other rows in their order: deleting after an
      append is deleting before it, then appending the row if it survives. */
  lemma DeleteKeepsOrder(t: Table, f: Face, e: string)
    ensures DeleteOneFile(t + [f], Some(e))
            == DeleteOneFile(t, Some(e)) + (if f.etag == e then [] else [f])
  {
    var keep := LacksEtag(e);
    FilterAppend(keep, t, [f]);
    FilterSingleton(keep, f);
    assert keep(f) <==> f.etag != e;
  }

  /** Deleting one photo does not touch the rows of any other photo. */
  lemma DeleteSparesOtherPhotos(t: Table, e: string, other: string)
    requires other != e
    ensures CheckAlreadyDetect(DeleteOneFile(t, Some(e)), Some(other))
            == CheckAlreadyDetect(t, Some(other))
  {
    var r := DeleteOneFile(t, Some(e));
    if i :| 0 <= i < |t| && t[i].etag == other {
      assert t[i] in multiset(t);
      assert t[i] in multiset(r);
      var j :| 0 <= j < |r| && r[j] == t[i];
    }
    forall i | 0 <= i < |r|
      ensures r[i] in t
    {
      assert r[i] in multiset(r);
    }
  }

  // -------------------------------------------- placeholder-row invariant

  /** Placeholder rows (token "null") are never in a cluster. */
  ghost predicate PlaceholdersUnclustered(t: Table) {
    forall i :: 0 <= i < |t| && t[i].facetoken == NullText ==> t[i].faceid == Unclustered
  }

  lemma EmptyRecordKeepsPlaceholders(t: Table, h: string)
    requires PlaceholdersUnclustered(t)
    ensures PlaceholdersUnclustered(AddEmptyRecords(t, h))
  {
  }

  lemma DeleteKeepsPlaceholders(t: Table, e: Option<string>)
    requires PlaceholdersUnclustered(t)
    ensures PlaceholdersUnclustered(DeleteOneFile(t, e))
  {
    var r := DeleteOneFile(t, e);
    forall i | 0 <= i < |r| && r[i].facetoken == NullText
      ensures r[i].faceid == Unclustered
    {
      assert r[i] in multiset(r);
      assert r[i] in t;
    }
  }

  /** A merge never touches a placeholder, for any pair of ids: its guard
      skips `oldId == -1`, and a placeholder's id is -1. */
  lemma ReassignKeepsPlaceholders(t: Table, oldId: int, newId: int)
    requires PlaceholdersUnclustered(t)
    ensures PlaceholdersUnclustered(ReassignFaceId(t, oldId, newId))
  {
  }

  /** A point update keeps the invariant unless it names the placeholder
      token with a real cluster id. */
  lemma UpdateKeepsPlaceholders(t: Table, f: Face)
    requires PlaceholdersUnclustered(t)
    requires f.facetoken != NullText || f.faceid == Unclustered
    ensures PlaceholdersUnclustered(UpdateFaceId(t, Some(f)))
  {
  }

  /** `updateFaceID(Face)` itself does not guard the placeholder token: a
      face named "null" with a real id clusters every placeholder row. */
  lemma UpdateCanClusterPlaceholders(t: Table, f: Face)
    requires PlaceholdersUnclustered(t)
    requires exists i :: 0 <= i < |t| && t[i].facetoken == NullText
    requires f.facetoken == NullText && f.faceid != Unclustered
    ensures !PlaceholdersUnclustered(UpdateFaceId(t, Some(f)))
  {
    var i :| 0 <= i < |t| && t[i].facetoken == NullText;
    var r := UpdateFaceId(t, Some(f));
    assert r[i].facetoken == NullText;
  }

  /** Placeholder rows never reach the clustering queue. */
  lemma QueueHasNoPlaceholders(leq: (string, string) -> bool, t: Table)
    requires TotalPreorder(leq)
    ensures forall x :: x in GetAllNewFaces(leq, t) ==> x.facetoken != NullText && x.faceid == Unclustered
  {
    var q := GetAllNewFaces(leq, t);
    forall x | x in q
      ensures x.facetoken != NullText && x.faceid == Unclustered
    {
      assert multiset(q)[x] > 0;
    }
  }

  // ------------------------------------------------- queue and lookups

  /** An inserted unclustered face enters the queue once more than before. */
  lemma InsertedNewFaceIsQueued(leq: (string, string) -> bool, t: Table, f: Face)
    requires TotalPreorder(leq) && IsNewFace(f)
    ensures multiset(GetAllNewFaces(leq, InsertOneRecord(t, Some(f))))[f]
            == multiset(GetAllNewFaces(leq, t))[f] + 1
  {
    var r := InsertOneRecord(t, Some(f));
    assert r == t + [f];
    assert multiset(r) == multiset(t) + multiset{f};
  }

  /** A face whose token was given a real cluster leaves the queue. */
  lemma UpdatedFaceLeavesQueue(leq: (string, string) -> bool, t: Table, f: Face)
    requires TotalPreorder(leq) && f.faceid != Unclustered
    ensures forall x :: x in GetAllNewFaces(leq, UpdateFaceId(t, Some(f))) ==> x.facetoken != f.facetoken
  {
    var r := UpdateFaceId(t, Some(f));
    var q := GetAllNewFaces(leq, r);
    forall x | x in q
      ensures x.facetoken != f.facetoken
    {
      assert multiset(q)[x] > 0;
      assert x in multiset(r);
      var i :| 0 <= i < |r| && r[i] == x;
    }
  }

  /** Looking up a token that was absent before it was inserted finds the
      inserted face. */
  lemma GetFaceAfterInsert(t: Table, f: Face)
    requires !IsBlank(Some(f.facetoken))
    requires forall i :: 0 <= i < |t| ==> t[i].facetoken != f.facetoken
    ensures GetFace(InsertOneRecord(t, Some(f)), Some(f.facetoken)) == Some(f)
  {
    var r := InsertOneRecord(t, Some(f));
    assert r[|t|] == f;
  }

  /** After a point update, looking the token up shows the new cluster. */
  lemma GetFaceAfterUpdate(t: Table, f: Face)
    requires !IsBlank(Some(f.facetoken))
    requires exists i :: 0 <= i < |t| && t[i].facetoken == f.facetoken
    ensures GetFace(UpdateFaceId(t, Some(f)), Some(f.facetoken)).Some?
    ensures GetFace(UpdateFaceId(t, Some(f)), Some(f.facetoken)).value.faceid == f.faceid
  {
    var r := UpdateFaceId(t, Some(f));
    var i :| 0 <= i < |t| && t[i].facetoken == f.facetoken;
    assert r[i].facetoken == f.facetoken;
    var g := GetFace(r, Some(f.facetoken)).value;
    var j :| 0 <= j < |r| && r[j] == g;
    assert r[j].facetoken == t[j].facetoken;
  }

  // ------------------------------------------------------- cluster merge

  /** Relabelling one row: it counts towards `x` in cluster `newId` when it
      was `x` or was `x` in cluster `oldId`. */
  lemma RelabelRowCount(h: Face, oldId: int, newId: int, x: Face)
    requires oldId != newId && x.faceid == newId
    ensures multiset{RelabelRow(FaceIdIs(oldId), newId, h)}[x]
            == multiset{h}[x] + multiset{h}[x.(faceid := oldId)]
  {
    var y := x.(faceid := oldId);
    if h.faceid == oldId {
      assert h != x;
      assert RelabelRow(FaceIdIs(oldId), newId, h) == x <==> h == y;
    } else {
      assert h != y;
    }
  }

  /** Relabelling cluster `oldId` as `newId` moves rows, it does not copy
      or lose them: a row of cluster `newId` afterwards is a former row of
      `newId` or a former row of `oldId` relabelled. */
  lemma {:induction false} RelabelMultiset(t: Table, oldId: int, newId: int, x: Face)
    requires oldId != newId && x.faceid == newId
    ensures multiset(Relabel(t, FaceIdIs(oldId), newId))[x]
            == multiset(t)[x] + multiset(t)[x.(faceid := oldId)]
  {
    if t != [] {
      var h := t[0];
      var rest := t[1..];
      RelabelMultiset(rest, oldId, newId, x);
      RelabelRowCount(h, oldId, newId, x);
      assert t == [h] + rest;
      assert Relabel(t, FaceIdIs(oldId), newId) == [RelabelRow(FaceIdIs(oldId), newId, h)] + Relabel(rest, FaceIdIs(oldId), newId);
    }
  }

  /** `updateFaceID(oldId, newId)` with two distinct real ids empties
      cluster `oldId`. */
  lemma MergeEmptiesOldCluster(t: Table, oldId: int, newId: int)
    requires 0 <= oldId && 0 <= newId && oldId != newId
    ensures GetFacesByID(ReassignFaceId(t, oldId, newId), oldId) == Some([])
  {
    var r := ReassignFaceId(t, oldId, newId);
    var gone := GetFacesByID(r, oldId).value;
    assert forall i :: 0 <= i < |r| ==> r[i].faceid != oldId;
  }

  /** `updateFaceID(oldId, newId)` with two distinct real ids leaves
      cluster `newId` with exactly the former members of both clusters. */
  lemma MergeFillsNewCluster(t: Table, oldId: int, newId: int, x: Face)
    requires 0 <= oldId && 0 <= newId && oldId != newId
    requires x.faceid == newId
    ensures multiset(GetFacesByID(ReassignFaceId(t, oldId, newId), newId).value)[x]
            == multiset(t)[x] + multiset(t)[x.(faceid := oldId)]
  {
    assert ReassignFaceId(t, oldId, newId) == Relabel(t, FaceIdIs(oldId), newId);
    RelabelMultiset(t, oldId, newId, x);
  }
}

=== FILE: top_clusters.dfy ===
/** `getAllValidFaceID`: the ids of the largest clusters, most members
    first, as `select faceid, count(faceid) from faces where faceid != -1
    group by faceid order by count(faceid) desc limit L` computes them. */
module TopClusters {

  import opened Wrappers
  import opened Sequences
  import opened FaceTable

  /** The limit used when the caller's is out of range. */
  const DefaultLimit: nat := 25

  /** Caller limits must stay below this bound. */
  const LimitBound: int := 300

  /** The `limit` of the query: `facecount` when it lies strictly between 0
      and 300, otherwise 25. */
  function EffectiveLimit(facecount: int): (n: nat)
    ensures 0 < n < LimitBound
    ensures 0 < facecount < LimitBound ==> n == facecount
    ensures facecount <= 0 || LimitBound <= facecount ==> n == DefaultLimit
  {
    if 0 < facecount < LimitBound then facecount else DefaultLimit
  }

  /** `count(faceid)` of the group of `id`. */
  function Count(t: Table, id: int): nat {
    |Filter(InCluster(id), t)|
  }

  /** `id` is the `faceid` of some row and is not the unclustered sentinel. */
  ghost predicate IsClusterId(t: Table, id: int) {
    id != Unclustered && exists i :: 0 <= i < |t| && t[i].faceid == id
  }

  /** The groups of `group by faceid`: each real cluster id once, in order
      of first appearance. */
  function ClusterIds(t: Table): (r: seq<int>)
    ensures Distinct(r)
    ensures forall id :: id in r <==> IsClusterId(t, id)
  {
    if t == [] then []
    else
      var init := ClusterIds(t[..|t| - 1]);
      var id := t[|t| - 1].faceid;
      assert forall i :: 0 <= i < |t| - 1 ==> t[..|t| - 1][i] == t[i];
      if id == Unclustered || id in init then init
      else
        assert multiset(init)[id] == 0;
        init + [id]
  }

  /** Clusters ordered by member count, largest first; equal counts tie. */
  function ByCountDesc(t: Table): (int, int) -> bool {
    (a: int, b: int) => Count(t, b) <= Count(t, a)
  }

  lemma ByCountDescIsPreorder(t: Table)
    ensures TotalPreorder(ByCountDesc(t))
  {
    var le := ByCountDesc(t);
    forall a: int, b: int
      ensures le(a, b) || le(b, a)
    {
      assert Count(t, b) <= Count(t, a) || Count(t, a) <= Count(t, b);
    }
    forall a: int, b: int, c: int | le(a, b) && le(b, c)
      ensures le(a, c)
    {
      assert Count(t, b) <= Count(t, a) && Count(t, c) <= Count(t, b);
    }
  }

  /** `getAllValidFaceID(facecount)`: at most the effective limit of
      distinct real cluster ids, member counts non-increasing along the
      list, and no cluster left out is larger than one listed; when fewer
      than the limit are listed, every cluster is listed. Equal counts are
      ordered by first appearance, which the query leaves unspecified. */
  function GetAllValidFaceID(t: Table, facecount: int): (r: seq<int>)
    ensures |r| <= EffectiveLimit(facecount)
    ensures Distinct(r)
    ensures forall id :: id in r ==> IsClusterId(t, id)
    ensures forall i, j :: 0 <= i < j < |r| ==> Count(t, r[j]) <= Count(t, r[i])
    ensures forall id, i :: IsClusterId(t, id) && id !in r && 0 <= i < |r| ==> Count(t, id) <= Count(t, r[i])
    ensures |r| < EffectiveLimit(facecount) ==> forall id :: IsClusterId(t, id) ==> id in r
  {
    ByCountDescIsPreorder(t);
    var ids := SortBy(ByCountDesc(t), ClusterIds(t));
    var r := ids[..Min(EffectiveLimit(facecount), |ids|)];
    TopPrefix(t, ids, |r|);
    r
  }

  /** A prefix of the count-sorted cluster ids has the properties above. */
  lemma TopPrefix(t: Table, ids: seq<int>, n: nat)
    requires n <= |ids|
    requires multiset(ids) == multiset(ClusterIds(t))
    requires Sorted(ByCountDesc(t), ids)
    ensures Distinct(ids[..n])
    ensures forall id :: id in ids[..n] ==> IsClusterId(t, id)
    ensures forall i, j :: 0 <= i < j < n ==> Count(t, ids[..n][j]) <= Count(t, ids[..n][i])
    ensures forall id, i :: IsClusterId(t, id) && id !in ids[..n] && 0 <= i < n ==> Count(t, id) <= Count(t, ids[..n][i])
    ensures n == |ids| ==> forall id :: IsClusterId(t, id) ==> id in ids[..n]
  {
    PrefixMultiset(ids, n);
    PrefixHoldsClusters(t, ids, n);
    PrefixCountsDescend(t, ids, n);
    OmittedNoLarger(t, ids, n);
    if n == |ids| {
      FullListHoldsAll(t, ids);
      assert ids[..n] == ids;
    }
  }

  /** Every id of the prefix is a real cluster id. */
  lemma PrefixHoldsClusters(t: Table, ids: seq<int>, n: nat)
    requires n <= |ids|
    requires multiset(ids) == multiset(ClusterIds(t))
    ensures forall id :: id in ids[..n] ==> IsClusterId(t, id)
  {
    forall id | id in ids[..n]
      ensures IsClusterId(t, id)
    {
      assert id in ids;
      assert id in multiset(ids);
      assert id in ClusterIds(t);
    }
  }

  /** Member counts do not increase along the prefix. */
  lemma PrefixCountsDescend(t: Table, ids: seq<int>, n: nat)
    requires n <= |ids|
    requires Sorted(ByCountDesc(t), ids)
    ensures forall i, j :: 0 <= i < j < n ==> Count(t, ids[..n][j]) <= Count(t, ids[..n][i])
  {
    forall i, j | 0 <= i < j < n
      ensures Count(t, ids[..n][j]) <= Count(t, ids[..n][i])
    {
      assert ByCountDesc(t)(ids[i], ids[j]);
    }
  }

  /** A cluster left out of the prefix is no larger than one in it. */
  lemma OmittedNoLarger(t: Table, ids: seq<int>, n: nat)
    requires n <= |ids|
    requires multiset(ids) == multiset(ClusterIds(t))
    requires Sorted(ByCountDesc(t), ids)
    ensures forall id, i :: IsClusterId(t, id) && id !in ids[..n] && 0 <= i < n ==> Count(t, id) <= Count(t, ids[..n][i])
  {
    forall id, i | IsClusterId(t, id) && id !in ids[..n] && 0 <= i < n
      ensures Count(t, id) <= Count(t, ids[..n][i])
    {
      assert id in multiset(ClusterIds(t));
      assert id in multiset(ids);
      var j :| 0 <= j < |ids| && ids[j] == id;
      assert ByCountDesc(t)(ids[i], ids[j]);
    }
  }

  /** The whole sorted list holds every real cluster id. */
  lemma FullListHoldsAll(t: Table, ids: seq<int>)
    requires multiset(ids) == multiset(ClusterIds(t))
    ensures forall id :: IsClusterId(t, id) ==> id in ids
  {
    forall id | IsClusterId(t, id)
      ensures id in ids
    {
      assert id in multiset(ClusterIds(t));
    }
  }

  /** A limit of 0 and a limit of 500 both fall back to the default 25. */
  lemma OutOfRangeLimitIsDefault(t: Table)
    ensures GetAllValidFaceID(t, 0) == GetAllValidFaceID(t, 500)
    ensures |GetAllValidFaceID(t, 0)| <= DefaultLimit
  {
  }
}

=== FILE: wrappers.dfy ===
/** Java references that may be null. */
module Wrappers {

  /** A Java reference: `Null` or a present value. */
  datatype Option<+T> = Null | Some(value: T)
}
